=== FILE: README.md ===
# Lecturer management service — Dafny model

This project models the lecturer ("dosen") service of an academic
administration backend (`backend/src/dosen/dosen.service.ts`). The service is
role-gated CRUD over two database tables:

- `user` holds accounts: username, password hash and role (`status`);
- `dosen` holds lecturers: owning account (`user_id`), employee number (NIP)
  and name.

Every method first runs the admin guard. Create checks the NIP and then the
username for uniqueness, hashes the password, and inserts an account with role
"dosen" and a lecturer row pointing at it. Edit overwrites NIP, name and
username, and re-hashes the password only when a non-empty one is sent. Delete
removes the lecturer and then its account. The two reads join each lecturer
with its username and never select the password.

## Layout

- `collections.dfy` (module `Collections`): `Option`, the least element of a
  key set, keys in ascending order, the next autoincrement id (`Fresh`), and
  `findFirst` over a table (`FirstKey`).
- `schema.dfy` (module `Schema`): the `User`, `Dosen` and `Store` datatypes,
  the store invariant `Valid`, and the two `findFirst` queries by NIP and by
  username.
- `dosen_service.dfy` (module `DosenService`): the six service methods as
  pure functions `Store × role × arguments → Result<Reply>`.
- `dosen_properties.dfy` (module `DosenProperties`): lemmas about several
  calls and about the store invariant.

## Modelling decisions

- The ORM becomes two maps from primary key to row. `findFirst` with a filter
  returns the least matching key. `findUnique` by id is a map lookup.
- The errors the code raises itself (Forbidden, BadRequest, NotFound) carry
  no store: they are thrown before any write, so the database is unchanged.
  A `Crash` carries the database as the crash leaves it. For edit and delete
  on a lecturer whose account row is missing, that includes the lecturer
  write made before the account write fails.
- The password hasher is a parameter `hash: string -> string`. It stands for
  an uninterpreted foreign call.
- A new row's id is one past the largest id in use, and 1 in an empty table
  (`Collections.Fresh`).
- `Crash` stands for a runtime failure the code does not guard against. One
  case is reading a property of a `null` row. The other is an ORM update or
  delete of a row that does not exist:
  - edit rewrites the lecturer row (lines 177-185) before the account update
    at line 195 fails;
  - delete removes the lecturer row (line 233) before the account delete at
    line 239 fails.
- Edit on a missing id is a `Crash`, not `NotFound`. Line 135 reads
  `dosen.user_id` before the null check at line 139, so the `NotFound` at
  lines 139-143 is never reached. The store is unchanged.
- Both "already exists" failures are `BadRequest`, the exception thrown at
  lines 73, 85, 157 and 171.
- The edit's username check compares the found account's username with the
  edited lecturer's current username, not the account ids (line 170). Under
  the store invariant this is the same as comparing ids
  (`DosenProperties.EditConflictRules`). On a store with a duplicated
  username it is not (`DosenProperties.EditUsernameCheckComparesNames`).
- `Schema.Valid` is the store invariant. Each of its four conjuncts is kept
  by a different part of the code:
  - NIPs are unique: the NIP pre-checks (lines 66-76 and 145-160);
  - usernames are unique: the username pre-checks (lines 78-88 and
    163-175);
  - every lecturer's account exists and has role "dosen": create inserts a
    new "dosen" account together with its lecturer (lines 94-108),
    delete removes the two together (lines 233-243), and edit writes
    neither a lecturer's account id (lines 181-184) nor an account's role
    (lines 199-202);
  - no two lecturers share an account: create points each new lecturer at
    the account it has just inserted (lines 94-108), and edit never changes
    which account a lecturer points at.
  The operations do not require it. Lemmas that need it take it as a
  hypothesis.

## Model

| member | source | states |
|---|---|---|
| DosenService.VerifyAdmin | backend/src/dosen/dosen.service.ts:11-17 | The guard passes exactly when the role claim equals "admin"; otherwise it fails with Forbidden. |
| DosenProperties.NonAdminIsForbidden | backend/src/dosen/dosen.service.ts:11-20 | For a non-admin caller all five service methods fail with Forbidden, whatever the store and arguments (the guard is the first statement of each, lines 20, 40, 64, 124, 219). |
| DosenService.GetDosen | backend/src/dosen/dosen.service.ts:19-37 | Fails only for a non-admin caller; otherwise leaves the store unchanged and lists every lecturer exactly once (in ascending id order, an order the model fixes), each joined with its account's username and with no password field. |
| Collections.Ascending | backend/src/dosen/dosen.service.ts:21-30 | The order the model gives the unordered query: each key of the table exactly once, strictly increasing, as many entries as keys. |
| DosenService.ViewOf | backend/src/dosen/dosen.service.ts:45-52 | The joined lecturer view: the lecturer's id, account id, NIP and name, and its account's username exactly when that account row exists; it has no password field. |
| DosenService.GetDosenById | backend/src/dosen/dosen.service.ts:39-60 | Fails only for a non-admin caller; otherwise leaves the store unchanged and returns null data exactly when the id is missing, else the lecturer joined with its username. |
| DosenProperties.ListAgreesWithGetById | backend/src/dosen/dosen.service.ts:19-59 | Every entry of the listing is exactly what a read by its id returns. |
| Schema.NipHolder | backend/src/dosen/dosen.service.ts:66-70 | Finds nothing exactly when no lecturer holds the NIP; otherwise finds a lecturer that holds it. |
| Schema.UsernameHolder | backend/src/dosen/dosen.service.ts:78-82 | Finds nothing exactly when no account holds the username; otherwise finds an account that holds it. |
| Collections.Fresh | backend/src/dosen/dosen.service.ts:94-108 | The id given to an inserted row is not in use, exceeds every id in use and is at least 1. |
| DosenService.CreateDosen | backend/src/dosen/dosen.service.ts:62-121 | Non-admin gives Forbidden. A NIP any lecturer holds gives BadRequest naming the NIP, checked first. Otherwise a username any account holds gives BadRequest naming the username. Succeeds exactly when neither is taken. Then the store gains exactly one new account, with the username, the hash of the password and role "dosen", and one new lecturer at an unused id pointing at it. All other rows are untouched. The reply is id, username, NIP and name. |
| DosenProperties.CreatePreservesValid | backend/src/dosen/dosen.service.ts:66-108 | On a store satisfying the invariant, a create with a NIP and username nobody holds succeeds and yields a store satisfying the invariant. |
| DosenProperties.CreateThenReuse | backend/src/dosen/dosen.service.ts:66-88 | After a create with a NIP and username nobody holds, a create reusing that NIP fails naming the NIP whatever its username, and a create reusing only the username fails naming the username. |
| DosenProperties.CreateThenGetById | backend/src/dosen/dosen.service.ts:94-119 | A create with a NIP and username nobody holds succeeds, and reading the new id back returns the sent NIP and name joined with the sent username. |
| DosenProperties.CreateThenDeleteRestores | backend/src/dosen/dosen.service.ts:94-108 | A create with a NIP and username nobody holds succeeds, and deleting the lecturer it added gives back exactly the store before the create. |
| Schema.Lookup | backend/src/dosen/dosen.service.ts:133-137 | The lookup by id finds a row exactly when the id is in the table, and then that row. |
| DosenService.NewPasswordHash | backend/src/dosen/dosen.service.ts:188-193 | An absent or empty password keeps the current hash; a non-empty one is replaced by its hash. |
| DosenService.EditDosenById | backend/src/dosen/dosen.service.ts:123-216 | Non-admin gives Forbidden. A missing id gives Crash with the store unchanged, never NotFound. A lecturer whose account row is missing, when no other lecturer holds the new NIP, gives Crash: with the store unchanged when some account holds the new username, otherwise with the lecturer row already rewritten. A NIP rejection implies another lecturer holds the NIP, and a NIP that another lecturer holds and the edited lecturer does not is rejected. A username rejection implies some account holds the username and it differs from the lecturer's current one; conversely, with the account present and no other lecturer holding the NIP, a username some account holds and that differs from the current one is rejected, and otherwise the edit succeeds. On success only the lecturer's NIP and name change in the lecturer table, and only its account's username and hash change in the account table; the role and all other rows are untouched. The hash changes only for a non-empty password. |
| DosenProperties.EditConflictRules | backend/src/dosen/dosen.service.ts:145-175 | Under the invariant, an existing lecturer's edit rejects the NIP exactly when another lecturer holds it. It rejects the username exactly when no such NIP clash exists and another account holds that username. It succeeds exactly when neither clash exists, and never crashes. |
| DosenProperties.EditUsernameCheckComparesNames | backend/src/dosen/dosen.service.ts:163-175 | On a store where two accounts share a username, an edit keeping the lecturer's own username succeeds, although the first account found with that name is a different account. |
| DosenProperties.EditPreservesValid | backend/src/dosen/dosen.service.ts:145-203 | A successful edit on a store satisfying the invariant yields a store satisfying it. |
| DosenProperties.EditThenGetById | backend/src/dosen/dosen.service.ts:177-215 | After a successful edit, reading the id returns the edited NIP, name and username, with the same account. |
| DosenProperties.EditIdempotent | backend/src/dosen/dosen.service.ts:145-203 | On a store satisfying the invariant, repeating a successful edit succeeds with the same reply and leaves the store as the first edit left it (with a password, only up to re-salting; see below). |
| DosenProperties.EditWithoutPasswordThenDelete | backend/src/dosen/dosen.service.ts:177-203 | An edit of an existing lecturer that sends no password, with a NIP no other lecturer holds and a username no other account holds (it may keep its own NIP and username), succeeds, keeps the account and its stored hash, and a delete afterwards succeeds, after which a read finds nothing. |
| DosenService.DeleteDosenById | backend/src/dosen/dosen.service.ts:218-249 | Non-admin gives Forbidden. A missing id gives NotFound. A lecturer whose account row is missing gives Crash, with the lecturer row already removed and the accounts unchanged. On success the lecturer and its account are removed, every other row is unchanged, and the reply carries no data. |
| DosenProperties.DeletePreservesValid | backend/src/dosen/dosen.service.ts:221-243 | A successful delete on a store satisfying the invariant yields a store satisfying it. |
| DosenProperties.DeleteThenGetById | backend/src/dosen/dosen.service.ts:227-243 | After a successful delete, reading the id returns null data and the lecturer's account is gone. |
| DosenProperties.ValidStoreNeverCrashes | backend/src/dosen/dosen.service.ts:133-243 | On a store satisfying the invariant, delete never crashes, and an edit of an existing lecturer never crashes. |
| DosenProperties.EditOrphanedLecturerWritesHalf | backend/src/dosen/dosen.service.ts:177-203 | Editing a lecturer whose account row is missing crashes with the lecturer row already holding the new NIP and name. |
| DosenProperties.LecturerLifecycle | backend/src/dosen/dosen.service.ts:62-249 | On any store where the names involved are unused, the following holds in order. Create succeeds. A second create reusing the NIP fails naming the NIP. A create reusing only the username fails naming the username. An edit without a password succeeds and keeps the original hash. The delete succeeds. A read then finds nothing. |

## Left out

- The ORM client, NestJS decorators and dependency injection: replaced by the two maps of `Schema.Store`.
- Argon2 internals and salting: the hasher is the parameter `hash`. It is a function, so the model gives equal hashes for equal passwords; real Argon2 salts each call differently.
- A database failure between the two writes of create (lines 94-108), edit (lines 177-203) or delete (lines 233-243), such as a lost connection: not represented. The partial writes that follow from a missing account row in edit and delete are modelled (`Crash` carries the store).
- Concurrent requests racing past the uniqueness pre-checks, and a database-level uniqueness violation raised by a write: concurrency is out of scope.
- Message strings and the constant `status: 'success'` of the response envelope: only the field and value an error names are kept.
- Request-body validation (the DTO classes with their decorators are not part of this model): every DTO field is a string, and only the edit password is optional.
- DosenService.GetDosen: the query at lines 21-30 has no ordering, so the database may return the rows in any order (an update can move a row). The model fixes ascending id order.
- DosenProperties.EditIdempotent: with a non-empty password the source hashes again at line 192, and Argon2's fresh salt gives a different stored hash. The lemma's equal stores hold only because `hash` is a function; with a password the repeated edit's store equals the first one only up to that hash.
- Collections.Fresh: a database sequence never reuses an id, even after the highest row is deleted. The model takes one past the current largest id, so it can reuse such an id.
- Schema.NipHolder, Schema.UsernameHolder: the database does not fix which matching row `findFirst` returns without an ordering. The model takes the least id; under the invariant at most one row matches, so the choice does not matter there.
- DosenService.EditDosenById: its own contract does not decide the NIP check in one case: the edited lecturer already holds `dto.nip` and another lecturer holds it too. The outcome then depends on which matching row `findFirst` returns, which the database does not fix. That case cannot arise under the invariant, where `DosenProperties.EditConflictRules` states both directions.
- The frontend components (sidebar, header dropdown, guest navigation): UI rendering and browser session handling.
- The course-enrolment DTO (`backend/src/matkul_mahasiswa/dto/create-matkulmahasiswa.dto.ts`): declarative validation with no logic.

=== FILE: collections.dfy ===
/** Generic helpers over integer-keyed tables: the optional value a lookup
    returns, the least element of a set of keys, the keys in ascending order,
    the next autoincrement key, and the first key whose row satisfies a
    predicate. The database layer of the service is modelled on top of these. */
module Collections {

  /** The result of a lookup that may find nothing (the ORM's `null`). */
  datatype Option<+T> = None | Some(value: T)

  /** Some element of a non-empty set. */
  ghost function PickOne<T>(ks: set<T>): (x: T)
    requires ks != {}
    ensures x in ks
  {
    var x :| x in ks; x
  }

  /** Every finite non-empty set of integers has a least element. */
  lemma {:induction false} LeastExists(ks: set<int>)
    requires ks != {}
    ensures exists m :: m in ks && forall k :: k in ks ==> m <= k
    decreases ks
  {
    var x := PickOne(ks);
    var rest := ks - {x};
    if rest == {} {
      forall k | k in ks
        ensures x <= k
      {
        assert k !in rest;
      }
    } else {
      LeastExists(rest);
      var m :| m in rest && forall k :: k in rest ==> m <= k;
      assert forall k :: k in ks ==> k == x || k in rest;
      if x < m {
        assert forall k :: k in ks ==> x <= k;
      } else {
        assert forall k :: k in ks ==> m <= k;
      }
    }
  }

  /** The least element of a non-empty set of keys. */
  function Least(ks: set<int>): (m: int)
    requires ks != {}
    ensures m in ks
    ensures forall k :: k in ks ==> m <= k
  {
    LeastExists(ks);
    var m :| m in ks && (forall k :: k in ks ==> m <= k); m
  }

  /** True iff the keys in `r` are strictly increasing. */
  predicate StrictlyIncreasing(r: seq<int>)
  {
    forall i, j :: 0 <= i < j < |r| ==> r[i] < r[j]
  }

  /** The keys of `ks` listed once each, smallest first. An unordered query
      may return rows in any order; this is the one the model fixes. */
  function Ascending(ks: set<int>): (r: seq<int>)
    ensures |r| == |ks|
    ensures forall k :: k in ks <==> k in r
    ensures StrictlyIncreasing(r)
    decreases ks
  {
    if ks == {} then []
    else
      var m := Least(ks);
      var rest := Ascending(ks - {m});
      assert forall i :: 0 <= i < |rest| ==> m < rest[i] by {
        forall i | 0 <= i < |rest|
          ensures m < rest[i]
        {
          assert rest[i] in ks - {m};
        }
      }
      [m] + rest
  }

  /** The id the table's autoincrement sequence hands out next: one past the
      largest id in use, and 1 for a table whose ids are all below 1. */
  function Fresh<V>(m: map<int, V>): (k: int)
    ensures k !in m
    ensures forall j :: j in m ==> j < k
    ensures 1 <= k
  {
    var ks := Ascending(m.Keys);
    if |ks| == 0 || ks[|ks| - 1] < 1 then 1
    else
      assert forall j :: j in m ==> j <= ks[|ks| - 1] by {
        forall j | j in m
          ensures j <= ks[|ks| - 1]
        {
          assert j in ks;
          var i :| 0 <= i < |ks| && ks[i] == j;
          assert i == |ks| - 1 || ks[i] < ks[|ks| - 1];
        }
      }
      ks[|ks| - 1] + 1
  }

  /** The first row (by ascending key) whose value satisfies `p`, or None:
      the ORM's `findFirst` with a `where` filter. */
  function FirstKey<V>(m: map<int, V>, p: V -> bool): (r: Option<int>)
    ensures r.None? <==> forall k :: k in m ==> !p(m[k])
    ensures r.Some? ==> r.value in m && p(m[r.value])
    ensures r.Some? ==> forall k :: k in m && p(m[k]) ==> r.value <= k
  {
    var hits := set k | k in m && p(m[k]);
    assert forall k :: k in hits <==> k in m && p(m[k]);
    if hits == {} then None
    else
      var k := Least(hits);
      assert k in hits;
      Some(k)
  }

  /** Removing a key just inserted into a map that lacked it gives the map back. */
  lemma RemoveAfterInsert<V>(m: map<int, V>, k: int, v: V)
    requires k !in m
    ensures m[k := v] - {k} == m
  {
  }
}

=== FILE: dosen_properties.dfy ===
/** Properties of the lecturer service that relate several calls or that
    rely on the store invariant: the guard, the conflict rules, invariant
    preservation, read-after-write and the create/delete round trip. */
module DosenProperties {
  import opened Collections
  import opened Schema
  import opened DosenService

  /** Every operation rejects a caller whose role claim is not exactly
      "admin", before it looks at the store. */
  lemma NonAdminIsForbidden(s: Store, status: string, hash: string -> string, id: int,
                            create: CreateDosenDto, edit: EditDosenDto)
    requires status != Admin
    ensures GetDosen(s, status) == Err(Forbidden)
    ensures GetDosenById(s, status, id) == Err(Forbidden)
    ensures CreateDosen(s, status, hash, create) == Err(Forbidden)
    ensures EditDosenById(s, status, hash, id, edit) == Err(Forbidden)
    ensures DeleteDosenById(s, status, id) == Err(Forbidden)
  {
  }

  /** A create with an unused NIP and username succeeds and keeps the store
      invariant. */
  lemma CreatePreservesValid(s: Store, hash: string -> string, dto: CreateDosenDto)
    requires Valid(s)
    requires forall k :: k in s.dosen ==> s.dosen[k].nip != dto.nip
    requires forall k :: k in s.users ==> s.users[k].username != dto.username
    ensures CreateDosen(s, Admin, hash, dto).Ok?
    ensures Valid(CreateDosen(s, Admin, hash, dto).value.store)
  {
    var r := CreateDosen(s, Admin, hash, dto);
    var did := r.value.data.summary.id;
    var uid := r.value.store.dosen[did].userId;
    InsertLecturerPreservesValid(s, uid, User(dto.username, hash(dto.password), LecturerRole),
                                 did, Dosen(uid, dto.nip, dto.name));
  }

  /** Adding an unused account with role "dosen" and an unused lecturer
      pointing at it, with a NIP and username nobody holds, keeps the store
      invariant. */
  lemma InsertLecturerPreservesValid(s: Store, uid: int, u: User, did: int, d: Dosen)
    requires Valid(s)
    requires uid !in s.users && did !in s.dosen
    requires d.userId == uid && u.status == LecturerRole
    requires forall k :: k in s.dosen ==> s.dosen[k].nip != d.nip
    requires forall k :: k in s.users ==> s.users[k].username != u.username
    ensures Valid(Store(s.users[uid := u], s.dosen[did := d]))
  {
  }

  /** Under the invariant, the edit's NIP check rejects exactly a NIP held by
      another lecturer, and its username check (which compares usernames,
      not account ids) rejects exactly a username held by another account. */
  lemma EditConflictRules(s: Store, hash: string -> string, id: int, dto: EditDosenDto)
    requires Valid(s)
    requires id in s.dosen
    ensures var r := EditDosenById(s, Admin, hash, id, dto);
      && (r == Err(BadRequest(Nip, dto.nip)) <==>
            exists k :: k in s.dosen && k != id && s.dosen[k].nip == dto.nip)
      && (r == Err(BadRequest(Username, dto.username)) <==>
            && (forall k :: k in s.dosen && k != id ==> s.dosen[k].nip != dto.nip)
            && exists u :: u in s.users && u != s.dosen[id].userId && s.users[u].username == dto.username)
      && (r.Ok? <==>
            && (forall k :: k in s.dosen && k != id ==> s.dosen[k].nip != dto.nip)
            && (forall u :: u in s.users && u != s.dosen[id].userId ==> s.users[u].username != dto.username))
      && !(r.Err? && r.error.Crash?)
  {
  }

  /** A successful edit keeps the store invariant. */
  lemma EditPreservesValid(s: Store, status: string, hash: string -> string, id: int, dto: EditDosenDto)
    requires Valid(s)
    requires EditDosenById(s, status, hash, id, dto).Ok?
    ensures Valid(EditDosenById(s, status, hash, id, dto).value.store)
  {
  }

  /** A successful delete keeps the store invariant. */
  lemma DeletePreservesValid(s: Store, status: string, id: int)
    requires Valid(s)
    requires DeleteDosenById(s, status, id).Ok?
    ensures Valid(DeleteDosenById(s, status, id).value.store)
  {
  }

  /** Reading a lecturer back after creating it returns what was sent, with
      the new account's username and no password. */
  lemma CreateThenGetById(s: Store, hash: string -> string, dto: CreateDosenDto)
    requires forall k :: k in s.dosen ==> s.dosen[k].nip != dto.nip
    requires forall k :: k in s.users ==> s.users[k].username != dto.username
    ensures CreateDosen(s, Admin, hash, dto).Ok?
    ensures var reply := CreateDosen(s, Admin, hash, dto).value;
      var did := reply.data.summary.id;
      var read := GetDosenById(reply.store, Admin, did);
      && read.Ok? && read.value.data.item.Some?
      && var v := read.value.data.item.value;
      && v.id == did && v.nip == dto.nip && v.name == dto.name
      && v.user == Some(UserView(dto.username))
  {
  }

  /** Deleting the lecturer a create just added restores the store exactly. */
  lemma CreateThenDeleteRestores(s: Store, hash: string -> string, dto: CreateDosenDto)
    requires forall k :: k in s.dosen ==> s.dosen[k].nip != dto.nip
    requires forall k :: k in s.users ==> s.users[k].username != dto.username
    ensures CreateDosen(s, Admin, hash, dto).Ok?
    ensures var reply := CreateDosen(s, Admin, hash, dto).value;
      DeleteDosenById(reply.store, Admin, reply.data.summary.id) == Ok(Reply(s, NoData))
  {
    var reply := CreateDosen(s, Admin, hash, dto).value;
    var did := reply.data.summary.id;
    var uid := reply.store.dosen[did].userId;
    RemoveAfterInsert(s.users, uid, User(dto.username, hash(dto.password), LecturerRole));
    RemoveAfterInsert(s.dosen, did, Dosen(uid, dto.nip, dto.name));
  }

  /** After a delete neither the lecturer nor its account can be read back. */
  lemma DeleteThenGetById(s: Store, id: int)
    requires DeleteDosenById(s, Admin, id).Ok?
    ensures var s' := DeleteDosenById(s, Admin, id).value.store;
      && GetDosenById(s', Admin, id) == Ok(Reply(s', Found(None)))
      && s.dosen[id].userId !in s'.users
  {
  }

  /** Reading a lecturer back after editing it returns the edited fields. */
  lemma EditThenGetById(s: Store, hash: string -> string, id: int, dto: EditDosenDto)
    requires EditDosenById(s, Admin, hash, id, dto).Ok?
    ensures var s' := EditDosenById(s, Admin, hash, id, dto).value.store;
      GetDosenById(s', Admin, id)
        == Ok(Reply(s', Found(Some(DosenView(id, s.dosen[id].userId, dto.nip, dto.name, Some(UserView(dto.username)))))))
  {
  }

  /** Repeating a successful edit on a consistent store changes nothing more. */
  lemma EditIdempotent(s: Store, hash: string -> string, id: int, dto: EditDosenDto)
    requires Valid(s)
    requires EditDosenById(s, Admin, hash, id, dto).Ok?
    ensures var reply := EditDosenById(s, Admin, hash, id, dto).value;
      EditDosenById(reply.store, Admin, hash, id, dto) == Ok(reply)
  {
    var reply := EditDosenById(s, Admin, hash, id, dto).value;
    var s' := reply.store;
    EditPreservesValid(s, Admin, hash, id, dto);
    EditConflictRules(s', hash, id, dto);
    var uid := s.dosen[id].userId;
    var again := EditDosenById(s', Admin, hash, id, dto);
    assert again.Ok?;
    assert s'.dosen[id] == Dosen(uid, dto.nip, dto.name);
    assert again.value.store.dosen == s'.dosen;
    assert again.value.store.users[uid] == s'.users[uid];
    assert again.value.store.users == s'.users;
  }

  /** The listing and the by-id read agree on every lecturer. */
  lemma ListAgreesWithGetById(s: Store)
    ensures var items := GetDosen(s, Admin).value.data.items;
      forall i :: 0 <= i < |items| ==>
        GetDosenById(s, Admin, items[i].id) == Ok(Reply(s, Found(Some(items[i]))))
  {
  }

  /** The username check compares names, not account ids. On a store where
      two accounts share a username (which the invariant excludes), an edit
      that keeps the lecturer's own username passes even though the first
      account holding that name is a different one. */
  lemma EditUsernameCheckComparesNames(hash: string -> string)
    ensures var s := Store(map[1 := User("x", "h1", LecturerRole), 2 := User("x", "h2", LecturerRole)],
                           map[10 := Dosen(2, "n", "a")]);
      && !UsernameUnique(s.users)
      && UsernameHolder(s.users, "x") == Some(1)
      && EditDosenById(s, Admin, hash, 10, EditDosenDto("x", None, "n", "b")).Ok?
  {
    var s := Store(map[1 := User("x", "h1", LecturerRole), 2 := User("x", "h2", LecturerRole)],
                   map[10 := Dosen(2, "n", "a")]);
    assert s.users[1].username == "x" && s.users[2].username == "x";
    var h := UsernameHolder(s.users, "x");
    assert h.Some? && h.value in s.users.Keys;
    assert s.users.Keys == {1, 2};
    assert h.value <= 1;
    assert s.dosen[10].nip == "n";
    assert NipHolder(s.dosen, "n").Some?;
    assert s.dosen.Keys == {10};
  }

  /** After a create with an unused NIP and username, a second create reusing
      that NIP fails naming the NIP, whatever its username, and one reusing
      only the username fails naming the username. Neither leaves a row. */
  lemma CreateThenReuse(s: Store, hash: string -> string, dto: CreateDosenDto,
                        sameNip: CreateDosenDto, sameName: CreateDosenDto)
    requires forall k :: k in s.dosen ==> s.dosen[k].nip != dto.nip
    requires forall k :: k in s.users ==> s.users[k].username != dto.username
    requires sameNip.nip == dto.nip
    requires sameName.username == dto.username && sameName.nip != dto.nip
    requires forall k :: k in s.dosen ==> s.dosen[k].nip != sameName.nip
    ensures CreateDosen(s, Admin, hash, dto).Ok?
    ensures var s1 := CreateDosen(s, Admin, hash, dto).value.store;
      && CreateDosen(s1, Admin, hash, sameNip) == Err(BadRequest(Nip, dto.nip))
      && CreateDosen(s1, Admin, hash, sameName) == Err(BadRequest(Username, dto.username))
  {
    var c := CreateDosen(s, Admin, hash, dto);
    var s1 := c.value.store;
    var did := c.value.data.summary.id;
    var uid := s1.dosen[did].userId;
    assert s1.dosen[did].nip == dto.nip;
    assert s1.users[uid].username == dto.username;
  }

  /** An edit that sends no password, with a NIP no other lecturer holds and
      a username no other account holds (keeping its own is allowed),
      succeeds and keeps the stored hash; deleting the lecturer afterwards succeeds, and
      the lecturer can no longer be read. */
  lemma EditWithoutPasswordThenDelete(s: Store, hash: string -> string, id: int, dto: EditDosenDto)
    requires id in s.dosen && s.dosen[id].userId in s.users
    requires dto.password.None?
    requires forall k :: k in s.dosen && k != id ==> s.dosen[k].nip != dto.nip
    requires forall k :: k in s.users && k != s.dosen[id].userId ==> s.users[k].username != dto.username
    ensures var e := EditDosenById(s, Admin, hash, id, dto);
      && e.Ok?
      && var s' := e.value.store;
      && var uid := s.dosen[id].userId;
      && s'.dosen[id].userId == uid
      && s'.users[uid].passwordHash == s.users[uid].passwordHash
      && var d := DeleteDosenById(s', Admin, id);
      && d.Ok?
      && GetDosenById(d.value.store, Admin, id) == Ok(Reply(d.value.store, Found(None)))
  {
    var s' := EditDosenById(s, Admin, hash, id, dto).value.store;
    DeleteThenGetById(s', id);
  }

  /** A lecturer's life cycle on any store where the names involved are
      unused: create, a second create with the same NIP, a third with the
      same username, an edit without a password, a delete, a read. */
  lemma LecturerLifecycle(s: Store, hash: string -> string)
    requires forall k :: k in s.dosen ==> s.dosen[k].nip !in {"198001", "198002", "198003"}
    requires forall k :: k in s.users ==> s.users[k].username !in {"dosen1", "dosen1b"}
    ensures var c := CreateDosen(s, Admin, hash, CreateDosenDto("dosen1", "pass123", "198001", "Budi"));
      && c.Ok? && c.value.data.summary.nip == "198001"
      && var s1 := c.value.store;
      && var id := c.value.data.summary.id;
      && CreateDosen(s1, Admin, hash, CreateDosenDto("dosen2", "pass456", "198001", "Ani"))
           == Err(BadRequest(Nip, "198001"))
      && CreateDosen(s1, Admin, hash, CreateDosenDto("dosen1", "pass456", "198003", "Ani"))
           == Err(BadRequest(Username, "dosen1"))
      && var e := EditDosenById(s1, Admin, hash, id, EditDosenDto("dosen1b", None, "198002", "Budi S"));
      && e.Ok?
      && var s2 := e.value.store;
      && s2.users[s2.dosen[id].userId].passwordHash == hash("pass123")
      && var d := DeleteDosenById(s2, Admin, id);
      && d.Ok?
      && GetDosenById(d.value.store, Admin, id) == Ok(Reply(d.value.store, Found(None)))
  {
    var dto := CreateDosenDto("dosen1", "pass123", "198001", "Budi");
    CreateThenReuse(s, hash, dto, CreateDosenDto("dosen2", "pass456", "198001", "Ani"),
                    CreateDosenDto("dosen1", "pass456", "198003", "Ani"));
    var c := CreateDosen(s, Admin, hash, dto);
    var s1 := c.value.store;
    var id := c.value.data.summary.id;
    assert forall k :: k in s1.dosen ==> s1.dosen[k].nip != "198002";
    assert forall k :: k in s1.users ==> s1.users[k].username != "dosen1b";
    EditWithoutPasswordThenDelete(s1, hash, id, EditDosenDto("dosen1b", None, "198002", "Budi S"));
  }

  /** On a store satisfying the invariant, delete never crashes, and neither
      does an edit of an existing lecturer. */
  lemma ValidStoreNeverCrashes(s: Store, hash: string -> string, id: int, dto: EditDosenDto)
    requires Valid(s)
    ensures var d := DeleteDosenById(s, Admin, id); !(d.Err? && d.error.Crash?)
    ensures id in s.dosen ==>
      var e := EditDosenById(s, Admin, hash, id, dto); !(e.Err? && e.error.Crash?)
  {
    if id in s.dosen {
      EditConflictRules(s, hash, id, dto);
    }
  }

  /** Editing a lecturer whose account row is missing crashes on the account
      update after the lecturer row has already been rewritten. */
  lemma EditOrphanedLecturerWritesHalf(hash: string -> string)
    ensures var s := Store(map[], map[5 := Dosen(7, "old", "A")]);
      EditDosenById(s, Admin, hash, 5, EditDosenDto("u", None, "new", "B"))
        == Err(Crash(Store(map[], map[5 := Dosen(7, "new", "B")])))
  {
    var s := Store(map[], map[5 := Dosen(7, "old", "A")]);
    assert s.dosen[5 := Dosen(7, "new", "B")] == map[5 := Dosen(7, "new", "B")];
  }
}

=== FILE: dosen_service.dfy ===
/** The lecturer ("dosen") management service: admin-only create, read,
    update and delete of a lecturer together with its login account.

    Each service method is a pure function from the store, the caller's role
    claim and the request arguments to either an error or the new store and
    the response payload. The checks the code makes before writing raise
    errors that leave the database as it was. A runtime crash carries the
    database as the crash leaves it, which after an earlier write of the
    same call is not the database the call started from. The password
    hasher is a parameter, since it is a foreign call whose internals are
    not modelled. */
module DosenService {
  import opened Collections
  import opened Schema

  /** The field an "already exists" error names. */
  datatype Field = Nip | Username

  /** How a service call fails.
      Forbidden:  the caller is not an admin (HTTP 403).
      BadRequest: the NIP or username is already taken (HTTP 400); carries
                  the field and the offending value the message names.
      NotFound:   no lecturer with the requested id (HTTP 404).
      Crash:      a runtime failure the code does not guard against: a
                  property read on a `null` row, or an update/delete of a
                  row that is not there (HTTP 500); carries the database
                  as the writes made before the failure left it. */
  datatype Error = Forbidden | BadRequest(field: Field, value: string) | NotFound | Crash(at: Store)

  datatype Result<T> = Ok(value: T) | Err(error: Error)

  /** The account fields a lecturer read joins in; the password is never
      selected, so the type has no place for it. */
  datatype UserView = UserView(username: string)

  /** A lecturer row as the read endpoints return it, with its account. */
  datatype DosenView = DosenView(id: int, userId: int, nip: string, name: string, user: Option<UserView>)

  /** What create and edit return: no password, no account id. */
  datatype DosenSummary = DosenSummary(id: int, username: string, nip: string, name: string)

  /** The `data` member of the success envelope. */
  datatype Payload =
    | NoData
    | Listed(items: seq<DosenView>)
    | Found(item: Option<DosenView>)
    | Saved(summary: DosenSummary)

  /** A successful call: the store after it and the response payload. */
  datatype Reply = Reply(store: Store, data: Payload)

  /** Request body of create: every field is required. */
  datatype CreateDosenDto = CreateDosenDto(username: string, password: string, nip: string, name: string)

  /** Request body of edit: the password may be left out. */
  datatype EditDosenDto = EditDosenDto(username: string, password: Option<string>, nip: string, name: string)

  /** The admin guard run first by every method (strict string comparison). */
  function VerifyAdmin(status: string): (r: Result<()>)
    ensures r.Ok? <==> status == Admin
    ensures r.Err? ==> r.error == Forbidden
  {
    if status != Admin then Err(Forbidden) else Ok(())
  }

  /** The lecturer row `id` joined with the username of its account. */
  function ViewOf(s: Store, id: int): (v: DosenView)
    requires id in s.dosen
    ensures v.id == id && v.userId == s.dosen[id].userId
    ensures v.nip == s.dosen[id].nip && v.name == s.dosen[id].name
    ensures v.user.Some? <==> s.dosen[id].userId in s.users
    ensures v.user.Some? ==> v.user.value.username == s.users[s.dosen[id].userId].username
  {
    var d := s.dosen[id];
    DosenView(id, d.userId, d.nip, d.name,
              if d.userId in s.users then Some(UserView(s.users[d.userId].username)) else None)
  }

  /** `getDosen`: every lecturer with its username, each exactly once. The
      query has no ordering; the model lists them in ascending id order. */
  function GetDosen(s: Store, status: string): (r: Result<Reply>)
    ensures r.Err? <==> status != Admin
    ensures r.Err? ==> r.error == Forbidden
    ensures r.Ok? ==> r.value.store == s && r.value.data.Listed?
    ensures r.Ok? ==>
      var items := r.value.data.items;
      && |items| == |s.dosen|
      && (forall i, j :: 0 <= i < j < |items| ==> items[i].id < items[j].id)
      && (forall i :: 0 <= i < |items| ==> items[i].id in s.dosen && items[i] == ViewOf(s, items[i].id))
      && (forall k :: k in s.dosen ==> exists i :: 0 <= i < |items| && items[i].id == k)
  {
    if VerifyAdmin(status).Err? then Err(Forbidden)
    else
      var ks := Ascending(s.dosen.Keys);
      var items := ViewsOf(s, ks);
      assert forall i :: 0 <= i < |items| ==> items[i].id == ks[i];
      Ok(Reply(s, Listed(items)))
  }

  /** The joined view of each lecturer id in `ks`, in the same order. */
  function ViewsOf(s: Store, ks: seq<int>): (items: seq<DosenView>)
    requires forall i :: 0 <= i < |ks| ==> ks[i] in s.dosen
    ensures |items| == |ks|
    ensures forall i :: 0 <= i < |ks| ==> items[i] == ViewOf(s, ks[i])
  {
    seq(|ks|, i requires 0 <= i < |ks| => ViewOf(s, ks[i]))
  }

  /** `getDosenById`: the lecturer `id` with its username; a missing id is
      not an error but a success whose data is null. */
  function GetDosenById(s: Store, status: string, id: int): (r: Result<Reply>)
    ensures r.Err? <==> status != Admin
    ensures r.Err? ==> r.error == Forbidden
    ensures r.Ok? ==> r.value.store == s && r.value.data.Found?
    ensures r.Ok? ==> (r.value.data.item.None? <==> id !in s.dosen)
    ensures r.Ok? && id in s.dosen ==> r.value.data.item == Some(ViewOf(s, id))
  {
    if VerifyAdmin(status).Err? then Err(Forbidden)
    else if id in s.dosen then Ok(Reply(s, Found(Some(ViewOf(s, id)))))
    else Ok(Reply(s, Found(None)))
  }

  /** `createDosen`: rejects a NIP already in use, then a username already in
      use, and otherwise adds an account with role "dosen" and the hashed
      password, and a lecturer row pointing at it. */
  function CreateDosen(s: Store, status: string, hash: string -> string, dto: CreateDosenDto): (r: Result<Reply>)
    ensures r == Err(Forbidden) <==> status != Admin
    ensures r == Err(BadRequest(Nip, dto.nip)) <==>
      status == Admin && exists k :: k in s.dosen && s.dosen[k].nip == dto.nip
    ensures r == Err(BadRequest(Username, dto.username)) <==>
      && status == Admin
      && (forall k :: k in s.dosen ==> s.dosen[k].nip != dto.nip)
      && exists k :: k in s.users && s.users[k].username == dto.username
    ensures r.Ok? <==>
      && status == Admin
      && (forall k :: k in s.dosen ==> s.dosen[k].nip != dto.nip)
      && (forall k :: k in s.users ==> s.users[k].username != dto.username)
    ensures r.Ok? ==>
      && r.value.data.Saved?
      && var did := r.value.data.summary.id;
      && did !in s.dosen && did in r.value.store.dosen
      && var uid := r.value.store.dosen[did].userId;
      && uid !in s.users
      && r.value.store.users == s.users[uid := User(dto.username, hash(dto.password), LecturerRole)]
      && r.value.store.dosen == s.dosen[did := Dosen(uid, dto.nip, dto.name)]
      && r.value.data.summary == DosenSummary(did, dto.username, dto.nip, dto.name)
  {
    if VerifyAdmin(status).Err? then Err(Forbidden)
    else if NipHolder(s.dosen, dto.nip).Some? then Err(BadRequest(Nip, dto.nip))
    else if UsernameHolder(s.users, dto.username).Some? then Err(BadRequest(Username, dto.username))
    else
      var password := hash(dto.password);
      var uid := Fresh(s.users);
      var users' := s.users[uid := User(dto.username, password, LecturerRole)];
      var did := Fresh(s.dosen);
      var dosen' := s.dosen[did := Dosen(uid, dto.nip, dto.name)];
      Ok(Reply(Store(users', dosen'), Saved(DosenSummary(did, dto.username, dto.nip, dto.name))))
  }

  /** The password hash an edit stores: a fresh hash when a non-empty password
      was sent (JavaScript truthiness), the current hash otherwise. */
  function NewPasswordHash(hash: string -> string, password: Option<string>, current: string): (h: string)
    ensures password.None? || password == Some("") ==> h == current
    ensures password.Some? && password.value != "" ==> h == hash(password.value)
  {
    match password
    case Some(p) => if p != "" then hash(p) else current
    case None => current
  }

  /** `editDosenById`. The account row is looked up through the lecturer row
      before the lecturer is checked for null, so a missing id crashes rather
      than reporting NotFound. A NIP held by the first matching lecturer of a
      different id is rejected; a username held by some account is rejected
      when it differs from the edited lecturer's current username. Then the
      lecturer's NIP and name and the account's username are overwritten, and
      the password hash only when a non-empty password was sent. When the
      lecturer's account row is missing and the NIP check passes, the call
      crashes in one of two places: if some account holds the new username,
      the username check reads a field of the missing row and fails with
      nothing written; otherwise the lecturer row is written first and the
      account update then fails with the lecturer row already changed. */
  function EditDosenById(s: Store, status: string, hash: string -> string, id: int, dto: EditDosenDto): (r: Result<Reply>)
    ensures r == Err(Forbidden) <==> status != Admin
    ensures status == Admin && id !in s.dosen ==> r == Err(Crash(s))
    ensures r != Err(NotFound)
    ensures r.Err? && r.error.Crash? ==> id !in s.dosen || s.dosen[id].userId !in s.users
    ensures
      && status == Admin && id in s.dosen && s.dosen[id].userId !in s.users
      && (forall k :: k in s.dosen && k != id ==> s.dosen[k].nip != dto.nip)
      && (exists k :: k in s.users && s.users[k].username == dto.username)
      ==> r == Err(Crash(s))
    ensures
      && status == Admin && id in s.dosen && s.dosen[id].userId !in s.users
      && (forall k :: k in s.dosen && k != id ==> s.dosen[k].nip != dto.nip)
      && (forall k :: k in s.users ==> s.users[k].username != dto.username)
      ==> r == Err(Crash(Store(s.users, s.dosen[id := Dosen(s.dosen[id].userId, dto.nip, dto.name)])))
    ensures r == Err(BadRequest(Nip, dto.nip)) ==>
      exists k :: k in s.dosen && k != id && s.dosen[k].nip == dto.nip
    ensures
      && status == Admin && id in s.dosen && s.dosen[id].nip != dto.nip
      && (exists k :: k in s.dosen && k != id && s.dosen[k].nip == dto.nip)
      ==> r == Err(BadRequest(Nip, dto.nip))
    ensures
      && status == Admin && id in s.dosen && s.dosen[id].userId in s.users
      && (forall k :: k in s.dosen && k != id ==> s.dosen[k].nip != dto.nip)
      && (exists k :: k in s.users && s.users[k].username == dto.username)
      && s.users[s.dosen[id].userId].username != dto.username
      ==> r == Err(BadRequest(Username, dto.username))
    ensures
      && status == Admin && id in s.dosen && s.dosen[id].userId in s.users
      && (forall k :: k in s.dosen && k != id ==> s.dosen[k].nip != dto.nip)
      && (forall k :: k in s.users ==> s.users[k].username != dto.username
                                       || s.users[s.dosen[id].userId].username == dto.username)
      ==> r.Ok?
    ensures r == Err(BadRequest(Username, dto.username)) ==>
      && id in s.dosen && s.dosen[id].userId in s.users
      && s.users[s.dosen[id].userId].username != dto.username
      && exists k :: k in s.users && s.users[k].username == dto.username
    ensures r.Ok? ==>
      && id in s.dosen
      && var uid := s.dosen[id].userId;
      && uid in s.users
      && (forall k :: k in s.dosen && k != id ==> s.dosen[k].nip != dto.nip || s.dosen[id].nip == dto.nip)
      && (forall k :: k in s.users ==> s.users[k].username != dto.username || s.users[uid].username == dto.username)
      && r.value.store.dosen == s.dosen[id := Dosen(uid, dto.nip, dto.name)]
      && r.value.store.users.Keys == s.users.Keys
      && (forall k :: k in s.users && k != uid ==> r.value.store.users[k] == s.users[k])
      && r.value.store.users[uid].username == dto.username
      && r.value.store.users[uid].status == s.users[uid].status
      && r.value.store.users[uid].passwordHash == NewPasswordHash(hash, dto.password, s.users[uid].passwordHash)
      && r.value.data == Saved(DosenSummary(id, dto.username, dto.nip, dto.name))
  {
    if VerifyAdmin(status).Err? then Err(Forbidden)
    else if id !in s.dosen then Err(Crash(s))
    else
      var dosen := s.dosen[id];
      var user := Lookup(s.users, dosen.userId);
      var checkNip := NipHolder(s.dosen, dto.nip);
      if checkNip.Some? && checkNip.value != id then Err(BadRequest(Nip, dto.nip))
      else
        var checkUsername := UsernameHolder(s.users, dto.username);
        if checkUsername.Some? && user.None? then Err(Crash(s))
        else if checkUsername.Some? && s.users[checkUsername.value].username != user.value.username then
          Err(BadRequest(Username, dto.username))
        else
          var dosen' := s.dosen[id := Dosen(dosen.userId, dto.nip, dto.name)];
          if user.None? then Err(Crash(Store(s.users, dosen')))
          else
            var password := NewPasswordHash(hash, dto.password, user.value.passwordHash);
            var users' := s.users[dosen.userId := User(dto.username, password, user.value.status)];
            Ok(Reply(Store(users', dosen'), Saved(DosenSummary(id, dto.username, dto.nip, dto.name))))
  }

  /** `deleteDosenById`: NotFound for a missing id; otherwise removes the
      lecturer row and then its account row. Deleting an account row that is
      not there fails at runtime, after the lecturer row is already gone. */
  function DeleteDosenById(s: Store, status: string, id: int): (r: Result<Reply>)
    ensures r == Err(Forbidden) <==> status != Admin
    ensures r == Err(NotFound) <==> status == Admin && id !in s.dosen
    ensures r.Err? && r.error.Crash? <==> status == Admin && id in s.dosen && s.dosen[id].userId !in s.users
    ensures r.Err? && r.error.Crash? ==> r.error.at == Store(s.users, s.dosen - {id})
    ensures r.Ok? ==>
      && id in s.dosen
      && r.value.store.dosen.Keys == s.dosen.Keys - {id}
      && r.value.store.users.Keys == s.users.Keys - {s.dosen[id].userId}
      && (forall k :: k in r.value.store.dosen ==> r.value.store.dosen[k] == s.dosen[k])
      && (forall k :: k in r.value.store.users ==> r.value.store.users[k] == s.users[k])
      && r.value.data == NoData
  {
    if VerifyAdmin(status).Err? then Err(Forbidden)
    else if id !in s.dosen then Err(NotFound)
    else
      var dosen := s.dosen[id];
      var dosen' := s.dosen - {id};
      if dosen.userId !in s.users then Err(Crash(Store(s.users, dosen')))
      else Ok(Reply(Store(s.users - {dosen.userId}, dosen'), NoData))
  }
}

=== FILE: schema.dfy ===
/** The two database tables the lecturer service works on, and the
    consistency conditions the database is expected to keep between them. */
module Schema {
  import opened Collections

  /** The role claim that the service's guard admits. */
  const Admin := "admin"
  /** The role every lecturer's account carries. */
  const LecturerRole := "dosen"

  /** A row of the `user` table: login name, stored password hash, role. */
  datatype User = User(username: string, passwordHash: string, status: string)

  /** A row of the `dosen` table: the owning account, employee number (NIP)
      and display name. */
  datatype Dosen = Dosen(userId: int, nip: string, name: string)

  /** The database: both tables, keyed by their integer primary keys. */
  datatype Store = Store(users: map<int, User>, dosen: map<int, Dosen>)

  /** No two lecturers share a NIP. */
  predicate NipUnique(d: map<int, Dosen>)
  {
    forall a, b :: a in d && b in d && d[a].nip == d[b].nip ==> a == b
  }

  /** No two accounts share a username. */
  predicate UsernameUnique(u: map<int, User>)
  {
    forall a, b :: a in u && b in u && u[a].username == u[b].username ==> a == b
  }

  /** Every lecturer points at an existing account whose role is "dosen". */
  predicate AccountsLinked(s: Store)
  {
    forall k :: k in s.dosen ==>
      s.dosen[k].userId in s.users && s.users[s.dosen[k].userId].status == LecturerRole
  }

  /** No account is shared by two lecturers (the relation is one-to-one). */
  predicate AccountsDistinct(d: map<int, Dosen>)
  {
    forall a, b :: a in d && b in d && d[a].userId == d[b].userId ==> a == b
  }

  /** The store invariant: both uniqueness constraints and the one-to-one
      link from lecturers to their accounts. */
  predicate Valid(s: Store)
  {
    && NipUnique(s.dosen)
    && UsernameUnique(s.users)
    && AccountsLinked(s)
    && AccountsDistinct(s.dosen)
  }

  /** `dosen.findFirst({ where: { nip } })`: the first lecturer holding `nip`. */
  function NipHolder(d: map<int, Dosen>, nip: string): (r: Option<int>)
    ensures r.None? <==> forall k :: k in d ==> d[k].nip != nip
    ensures r.Some? ==> r.value in d && d[r.value].nip == nip
  {
    FirstKey(d, (x: Dosen) => x.nip == nip)
  }

  /** `user.findFirst({ where: { username } })`: the first account holding
      `username`. */
  function UsernameHolder(u: map<int, User>, username: string): (r: Option<int>)
    ensures r.None? <==> forall k :: k in u ==> u[k].username != username
    ensures r.Some? ==> r.value in u && u[r.value].username == username
  {
    FirstKey(u, (x: User) => x.username == username)
  }

  /** Looks a row up by primary key (`findUnique` / `findFirst` by id). */
  function Lookup<V>(m: map<int, V>, id: int): (r: Option<V>)
    ensures r.Some? <==> id in m
    ensures r.Some? ==> r.value == m[id]
  {
    if id in m then Some(m[id]) else None
  }
}
